=== FILE: README.md ===
# homework_bot in Dafny

A model of the decision logic of `homework.py`, a Telegram bot that polls the
Yandex Practicum homework-status API and reports new review verdicts to one
chat. The model covers:

- `check_tokens`, the credential gate that `main` runs before the loop
  (`tokens.dfy`);
- `check_response`, the shape check on the decoded API answer
  (`validator.dfy`);
- `HOMEWORK_VERDICTS` and `parse_status`, which turn one homework record into
  the notification text (`parser.dfy`);
- the body of `main`: one try/except cycle per API answer. It moves the
  `from_date` window, validates, parses the records in order until one is rejected, and offers each
  status message and each failure report to the single dedup slot
  `last_sent_message`. A fold over a finite run of answers stands in for the
  endless loop (`poll_loop.dfy`).

Supporting modules: `wrappers.dfy` (`Option`, `Result`), `json.dfy` (decoded
JSON values, plus the Python built-ins the bot applies to them: `dict.get`,
`type(x).__name__` and `str(x)`) and `errors.dfy` (the exceptions a cycle can
raise, and `str(error)` for each).

The answer of each HTTP call is an input to a cycle (`PollLoop.ApiAnswer`).
The answer is one of: a decoded body; a transport error, after which
`get_api_answer` returns `None`; a non-200 status, which raises
`RequestError`; or a body that is not JSON. A message counts as sent when
`send_message` is called with it.

The model is built in two layers:

- `PollLoop.Step` follows the code's shape. It runs the record loop and sends
  inline, then runs the except handler.
- A reference description says what a cycle does in other terms. The cycle
  produces a list of candidate messages that does not depend on the slot
  (`PollLoop.Candidates`). Those candidates are then passed through a
  single-slot filter (`PollLoop.Dedup`).

`PollLoop.StepIsDedup` proves the two layers are equal. Every dedup property
is proved about the filter and then carried over to a cycle, a whole run and
`main`.

Behaviour of the code that the model keeps, and that is easy to overlook:

- Records are parsed in list order until one is rejected, and each message
  is offered to the slot (homework.py:144-148); records after a rejected one
  are never parsed.
- A dict without `"homeworks"` fails the list check with a `TypeError`,
  because `.get` returns `None`. The `KeyError` branch for a missing key can
  never be taken (`Validator.MissingKeyIsTypeError`).
- `response.get('current_date')` (homework.py:141) runs before
  `check_response`. So inside `main`, a body that is not a dict raises
  `AttributeError` there. The validator's "not a dict" `TypeError` is never
  reported by a cycle (`PollLoop.Received`).
- A transport error is logged and swallowed, and `get_api_answer` returns
  `None`. The cycle therefore reports the failed `.get` on `None`, not a
  request error (`PollLoop.TransportFailureIsNullBody`).
- `parse_status` on a record that is not a dict follows Python's `in`. A str
  record is searched for the key names as substrings and a list record as
  elements, so a missing key name still gives its `KeyError`. Indexing a str
  or list record that contains both names then raises `TypeError`, as does
  `in` on any other non-dict record and the lookup of a list or dict status.
  These paths are written out in the body of `Parser.ParseStatus`; its
  contract speaks only of dict records and of the error kinds.

## Model

| member | source | states |
|---|---|---|
| `Tokens.All` | homework.py:41 | `all(values)` over credentials holds iff every value is present and non-empty |
| `Tokens.CheckTokens` | homework.py:33-41 | the check passes iff the Practicum token, the Telegram token and the chat id are all present and non-empty |
| `Validator.CheckResponse` | homework.py:75-98 | succeeds iff the answer is a dict with a list under "homeworks"; a non-dict is the "no dict" `TypeError`; every other malformed dict, including one without the key, is the "no list" `TypeError`; it never raises `KeyError`; an empty list is "no update"; a non-empty list comes back unchanged |
| `Validator.MissingKeyIsTypeError` | homework.py:82-92 | a dict without "homeworks" is rejected by the list check, so the missing-key `KeyError` is unreachable |
| `Parser.ParseStatus` | homework.py:101-125 | succeeds iff the record is a dict with both keys and a status in {approved, reviewing, rejected}; the message is the fixed head, the name in quotes, then the verdict for that status; on a dict, a missing name, then a missing status, then an unknown status give their own `KeyError`, in that order, and an int, bool or null status counts as unknown; every failure is a `KeyError` or a `TypeError` (for records that are not dicts, see the note above the table) |
| `Parser.StatusMessage` | homework.py:121-122 | the notification: the fixed head, the name in double quotes, a full stop and a space, then the verdict text |
| `Parser.ApprovedExample` | homework.py:118-122 | `{homework_name: "X", status: "approved"}` gives exactly `Изменился статус проверки работы "X". Работа проверена: ревьюеру всё понравилось. Ура!` |
| `Parser.DecodeStatusMessage` | homework.py:121-122 | a message it reads back as (name, status) is exactly the message built from that name and that status's verdict |
| `Parser.DecodeStatusMessageRoundTrip` | homework.py:121-122 | the message for any name and known status reads back as that name and status |
| `Parser.StatusMessageInjective` | homework.py:26-30 | the three verdict texts make messages distinct: different (name, status) pairs never give the same message |
| `Errors.ErrorText` | homework.py:150 | `str(error)` as the failure report embeds it: the message itself, except that a `KeyError` shows it between single quotes |
| `PollLoop.FailureMessage` | homework.py:150 | the failure report is `Сбой в работе программы: ` followed by `str(error)` |
| `PollLoop.Fetched` | homework.py:59-72 | `get_api_answer` gives the decoded body, `None` after a swallowed transport error, or raises `RequestError` for a non-200 status |
| `PollLoop.Notify` | homework.py:146-148 | one offer to the slot: send the message and store it iff it differs from the slot |
| `PollLoop.SendStatuses` | homework.py:144-148 | the record loop as written: parse each record in order, offer its message to the slot, stop at the first exception |
| `PollLoop.InitialState` | homework.py:135-136 | the loop starts with the clock reading as the window and the empty string in the slot |
| `PollLoop.Finish` | homework.py:149-153 | the except handler: when the try body raised, the failure report is offered to the slot after the sends already made |
| `PollLoop.Step` | homework.py:139-153 | one try/except cycle as written: move the window, fetch and validate, run the record loop, then offer the failure report if anything raised |
| `PollLoop.NextWindow` | homework.py:141 | the window becomes the answer's `current_date` (`None` if absent) whenever a dict came back, even if validation then fails; otherwise it is unchanged |
| `PollLoop.Received` | homework.py:140-143 | fetch and validation succeed iff the body is a well-formed dict, giving its records; a non-dict body or `None` raises `AttributeError` at `.get`; a malformed dict raises the "no list" `TypeError`; a non-200 status raises `RequestError`; the validator's "no dict" error never occurs |
| `PollLoop.RecordMessages` | homework.py:144-145 | the records are parsed in list order: the messages are those of the longest prefix `parse_status` accepts, and the exception, if any, is the rejection of the record right after it |
| `PollLoop.DedupKeepsSlot` | homework.py:146-148 | after messages are offered to the slot, it holds the last one; sends come from the offered messages; the first send differs from the slot's starting value and no send repeats the one before it (each send differs from the slot at that moment, see `DedupSnoc`); nothing is sent iff every offered message equals the slot |
| `PollLoop.DedupSnoc` | homework.py:146-148 | a message offered to the slot is sent exactly when it differs from what the slot holds at that moment, and it then becomes the slot |
| `PollLoop.DedupAppend` | homework.py:144-153 | offering two batches in turn is the same as offering their concatenation, so status messages and the failure report share one slot |
| `PollLoop.SendStatusesIsDedup` | homework.py:144-148 | the record loop's sends and final slot are those of the dedup filter on the parsed messages, and it stops with the parser's exception |
| `PollLoop.StepIsDedup` | homework.py:139-153 | a cycle as the code runs it equals its candidates (status messages in list order, then the failure report if one was raised) offered to the slot, with the window moved as `NextWindow` says |
| `PollLoop.StepKeepsSlot` | homework.py:146-153 | the first send of a cycle differs from the slot it started with, and no send repeats the one before it (a text in the slot at the start can be sent again after a different send); the slot ends holding the last send, or is untouched when nothing is sent |
| `PollLoop.NoUpdateSendsNothing` | homework.py:141-143 | an empty "homeworks" list sends nothing and leaves the slot unchanged, while the window still moves to `current_date` |
| `PollLoop.FailureIsReported` | homework.py:149-153 | an exception before any record is parsed puts `Сбой в работе программы: ` + its text in the slot; that report is sent unless the slot already held it |
| `PollLoop.SendsBeforeFailureStand` | homework.py:144-153 | when a record is rejected part-way through the list, the notifications sent for the earlier records stay in the send log, and the failure report ends in the slot |
| `PollLoop.TransportFailureIsNullBody` | homework.py:59-62 | a swallowed transport error behaves exactly like a `null` body: the window is kept and the `AttributeError` from `.get` on `None` is reported |
| `PollLoop.RepeatSendsNothing` | homework.py:146-153 | repeating an answer whose candidate messages are all the same text sends nothing the second time and leaves the slot unchanged |
| `PollLoop.QuietRepeats` | homework.py:146-153 | once the slot holds the one text an answer offers, any number of further cycles on that answer send nothing and keep the slot |
| `PollLoop.SingleRecordSentOnce` | homework.py:146-153 | an answer with at most one record, or one that raises before the records, is notified at most once however often it repeats: `n + 1` cycles on it send exactly what the first cycle sent |
| `PollLoop.TwoRecordsSentAgain` | homework.py:144-148 | because the slot holds only one message, repeating an answer whose two records parse to different messages sends both messages again, in list order |
| `PollLoop.Poll` | homework.py:138-155 | failures never stop the loop: each answer gets one query; the first query uses the starting window and each later one the window the previous cycle left; the whole run's sends and final slot are those of one slot offered every cycle's candidates in turn |
| `PollLoop.Main` | homework.py:128-155 | `main` exits before any query iff a credential is missing; otherwise the first query uses the clock reading, and the messages sent over the run never repeat back to back and never start with the empty initial slot value; the run's sends and final slot are those of a slot starting empty and offered every cycle's candidates in turn |

## Left out

- `get_api_answer`: the HTTP request, its headers and `from_date` parameter are I/O. Its result is the input `ApiAnswer`, and the text of the non-200 `RequestError` (which embeds the headers and parameters) is carried as given.
- `send_message`: the Telegram call is not modelled. A send is an entry in the cycle's sent list. Delivery errors are swallowed in the source, so the slot is updated whether or not delivery succeeded.
- `telegram.Bot(...)`, logging, `load_dotenv`/`os.getenv` (the credentials are inputs), `time.time` (the `now` input), `time.sleep(RETRY_PERIOD)`: these are environment and scheduling. `sys.exit` becomes the `Exited` outcome.
- The endless `while True` is modelled as a fold over a finite sequence of answers.
- Exceptions outside `Exception` (such as `KeyboardInterrupt`) are not caught by the loop. They are not modelled.
- JSON numbers are integers. Floats are not modelled: for every check here a float takes the same branch as an int, but its `str()` and its type name in the error texts (`'float' object has no attribute 'get'`, `argument of type 'float' is not iterable`) would differ.
- Json.PyStr: a `homework_name` that is a list or dict is rendered as a placeholder (`[...]` or `{...}`), not as Python's repr. Strings, ints, booleans and `null` are rendered as Python does.
- The texts of exceptions that Python itself raises (`AttributeError` from `.get`, and `TypeError` from `in`, from indexing a str or list with a str, or from an unhashable status) follow CPython 3.11's wording. Treat them as abstract error texts. A body that is not JSON is reported with whatever text its exception carries.
- A `current_date` that is missing or not an integer becomes the next window as it is. How `requests` renders that window into the query is not modelled.

=== FILE: errors.dfy ===
/**
 * The exceptions one poll cycle can raise, and `str(error)` for each, which
 * the cycle embeds in its failure report.
 */
module Errors {

  datatype PyError =
    /** `TypeError(msg)`, raised by the validator or by a Python built-in. */
    | TypeError(msg: string)
    /** `KeyError(msg)`, raised by the validator or the status parser. */
    | KeyError(msg: string)
    /** `AttributeError`, raised when `.get` is called on a value that is not a dict. */
    | AttributeError(msg: string)
    /** `RequestError(msg)`, raised by the API client on a non-200 answer. */
    | RequestError(msg: string)
    /** Any other exception out of the API client (a body that is not JSON, say), by its text. */
    | OtherError(msg: string)

  /**
   * `str(error)`. A `KeyError` shows the repr of its argument: every message
   * the bot puts in one contains a double quote or none and never a single
   * quote, so that repr is the message between single quotes.
   */
  function ErrorText(e: PyError): string
  {
    match e
    case KeyError(m) => "'" + m + "'"
    case TypeError(m) => m
    case AttributeError(m) => m
    case RequestError(m) => m
    case OtherError(m) => m
  }
}

=== FILE: json.dfy ===
/**
 * The values `response.json()` can produce, and the few Python built-ins the
 * bot applies to them: `type(x).__name__`, `str(x)` and `dict.get`.
 * JSON numbers are modelled as integers.
 */
module Json {
  datatype Json =
    | JNull
    | JBool(b: bool)
    | JInt(i: int)
    | JStr(s: string)
    | JArr(items: seq<Json>)
    | JObj(fields: map<string, Json>)

  /** Python's name for the type of the decoded value. */
  function TypeName(j: Json): (name: string)
    ensures name == "dict" <==> j.JObj?
    ensures name == "list" <==> j.JArr?
    ensures name == "str" <==> j.JStr?
  {
    match j
    case JNull => "NoneType"
    case JBool(_) => "bool"
    case JInt(_) => "int"
    case JStr(_) => "str"
    case JArr(_) => "list"
    case JObj(_) => "dict"
  }

  /** `d.get(key)` on a dict: the value under `key`, or `None` when it is absent. */
  function Get(fields: map<string, Json>, key: string): Json
  {
    if key in fields then fields[key] else JNull
  }

  /** The decimal digit for 0 <= d < 10. */
  function Digit(d: nat): (c: char)
    requires d < 10
    ensures '0' <= c <= '9'
  {
    "0123456789"[d]
  }

  predicate IsDigits(s: string) {
    forall k :: 0 <= k < |s| ==> '0' <= s[k] <= '9'
  }

  /** The decimal value of a string of digits, most significant first. */
  function DigitsValue(s: string): nat
    requires IsDigits(s)
  {
    if s == [] then 0 else 10 * DigitsValue(s[..|s| - 1]) + (s[|s| - 1] - '0') as nat
  }

  /** `str(n)` for a natural number: decimal digits without leading zeros. */
  function NatToString(n: nat): (s: string)
    ensures |s| > 0 && IsDigits(s)
    ensures DigitsValue(s) == n
    ensures |s| > 1 ==> s[0] != '0'
    decreases n
  {
    if n < 10 then [Digit(n)]
    else
      var prefix := NatToString(n / 10);
      var s := prefix + [Digit(n % 10)];
      assert s[..|s| - 1] == prefix;
      s
  }

  /** `str(i)` for a Python int. */
  function IntToString(i: int): (s: string)
    ensures i >= 0 ==> s == NatToString(i)
    ensures i < 0 ==> s == "-" + NatToString(-i)
  {
    if i < 0 then "-" + NatToString(-i) else NatToString(i)
  }

  /**
   * `str(x)` as an f-string renders it. Strings, integers, booleans and `None`
   * are rendered as Python does; lists and dicts are rendered as a fixed
   * placeholder.
   */
  function PyStr(j: Json): (s: string)
    ensures j.JStr? ==> s == j.s
  {
    match j
    case JNull => "None"
    case JBool(b) => if b then "True" else "False"
    case JInt(i) => IntToString(i)
    case JStr(s) => s
    case JArr(_) => "[...]"
    case JObj(_) => "{...}"
  }
}

=== FILE: parser.dfy ===
/** `HOMEWORK_VERDICTS` and `parse_status`: one homework record to a chat message. */
module Parser {
  import opened Wrappers
  import opened Json
  import opened Errors

  /** The verdict text for each status the review service reports. */
  const HomeworkVerdicts: map<string, string> := map[
    "approved" := "Работа проверена: ревьюеру всё понравилось. Ура!",
    "reviewing" := "Работа взята на проверку ревьюером.",
    "rejected" := "Работа проверена: у ревьюера есть замечания."
  ]

  const NoNameMsg: string := "Ошибка данных - в словаре нет ключа \"homework_name\""
  const NoStatusMsg: string := "Ошибка данных - в словаре нет ключа \"status\""
  const UnknownStatusMsg: string := "Ошибка данных - неизвестный статус"

  /** The text in front of the homework name, up to its opening quote. */
  const MessageHead: string := "Изменился статус проверки работы \""

  /** The closing quote and the sentence break between the name and the verdict. */
  const NameEnd: string := "\". "

  /** The notification for a homework called `name` whose verdict is `verdict`. */
  function StatusMessage(name: string, verdict: string): string {
    MessageHead + name + NameEnd + verdict
  }

  /** Python's `needle in haystack` for two strings: a substring test. */
  predicate Contains(haystack: string, needle: string)
    decreases |haystack|
  {
    |needle| <= |haystack|
    && (haystack[..|needle|] == needle || Contains(haystack[1..], needle))
  }

  /** The statuses the record may carry, stated independently of the table. */
  predicate KnownStatus(status: Json) {
    status == JStr("approved") || status == JStr("reviewing") || status == JStr("rejected")
  }

  /** A record `parse_status` accepts. */
  predicate ValidRecord(homework: Json) {
    && homework.JObj?
    && "homework_name" in homework.fields
    && "status" in homework.fields
    && KnownStatus(homework.fields["status"])
  }

  /**
   * `parse_status(homework)`. On a dict the checks run in the order
   * homework_name, status, known status. On a str or list `in` is a substring
   * or element test, so both keys may be "found" and the indexing that follows
   * raises `TypeError`; any other value rejects `in` with a `TypeError`, as
   * does a list or dict status, which cannot be hashed to look it up.
   */
  function ParseStatus(homework: Json): (r: Result<string, PyError>)
    ensures r.Success? <==> ValidRecord(homework)
    ensures r.Success? ==>
              r.value == StatusMessage(PyStr(homework.fields["homework_name"]),
                                       HomeworkVerdicts[homework.fields["status"].s])
    ensures homework.JObj? && "homework_name" !in homework.fields ==>
              r == Failure(KeyError(NoNameMsg))
    ensures homework.JObj? && "homework_name" in homework.fields && "status" !in homework.fields ==>
              r == Failure(KeyError(NoStatusMsg))
    ensures homework.JObj? && "homework_name" in homework.fields && "status" in homework.fields
            && !KnownStatus(homework.fields["status"])
            && !homework.fields["status"].JArr? && !homework.fields["status"].JObj? ==>
              r == Failure(KeyError(UnknownStatusMsg))
    ensures r.Failure? ==> r.error.KeyError? || r.error.TypeError?
  {
    match homework
    case JObj(fields) =>
      if "homework_name" !in fields then
        Failure(KeyError(NoNameMsg))
      else if "status" !in fields then
        Failure(KeyError(NoStatusMsg))
      else
        (match fields["status"]
         case JArr(_) => Failure(TypeError("unhashable type: 'list'"))
         case JObj(_) => Failure(TypeError("unhashable type: 'dict'"))
         case JStr(status) =>
           if status !in HomeworkVerdicts then
             Failure(KeyError(UnknownStatusMsg))
           else
             Success(StatusMessage(PyStr(Get(fields, "homework_name")), HomeworkVerdicts[status]))
         case _ => Failure(KeyError(UnknownStatusMsg)))
    case JStr(text) =>
      if !Contains(text, "homework_name") then
        Failure(KeyError(NoNameMsg))
      else if !Contains(text, "status") then
        Failure(KeyError(NoStatusMsg))
      else
        Failure(TypeError("string indices must be integers, not 'str'"))
    case JArr(items) =>
      if JStr("homework_name") !in items then
        Failure(KeyError(NoNameMsg))
      else if JStr("status") !in items then
        Failure(KeyError(NoStatusMsg))
      else
        Failure(TypeError("list indices must be integers or slices, not str"))
    case _ =>
      Failure(TypeError("argument of type '" + TypeName(homework) + "' is not iterable"))
  }

  /** The record `{homework_name: "X", status: "approved"}` gives the documented message. */
  lemma ApprovedExample()
    ensures ParseStatus(JObj(map["homework_name" := JStr("X"), "status" := JStr("approved")]))
            == Success("Изменился статус проверки работы \"X\". "
                       + "Работа проверена: ревьюеру всё понравилось. Ура!")
  {
    var record := JObj(map["homework_name" := JStr("X"), "status" := JStr("approved")]);
    assert ValidRecord(record);
    assert HomeworkVerdicts["approved"] == "Работа проверена: ревьюеру всё понравилось. Ура!";
    assert MessageHead + "X" + NameEnd == "Изменился статус проверки работы \"X\". ";
  }

  // ---------------------------------------------------------------------------
  // Reading a message back: the name and the status are recoverable from it.
  // ---------------------------------------------------------------------------

  predicate EndsWith(s: string, suffix: string) {
    |suffix| <= |s| && s[|s| - |suffix|..] == suffix
  }

  /** The part of a message that follows the name, for a given status. */
  function Tail(status: string): string
    requires status in HomeworkVerdicts
  {
    NameEnd + HomeworkVerdicts[status]
  }

  /** If `message` is `StatusMessage(name, verdict of status)`, the pair (name, status). */
  function TryStatus(message: string, status: string): (r: Option<(string, string)>)
    requires status in HomeworkVerdicts
    ensures r.Some? ==> r.value.1 == status && message == StatusMessage(r.value.0, HomeworkVerdicts[status])
  {
    var tail := Tail(status);
    if |MessageHead| + |tail| <= |message|
       && message[..|MessageHead|] == MessageHead
       && EndsWith(message, tail)
    then
      var name := message[|MessageHead|..|message| - |tail|];
      assert message == message[..|MessageHead|] + name + message[|message| - |tail|..];
      Some((name, status))
    else None
  }

  /** The inverse of the message builder: the homework name and status a message reports. */
  function DecodeStatusMessage(message: string): (r: Option<(string, string)>)
    ensures r.Some? ==> r.value.1 in HomeworkVerdicts
                        && message == StatusMessage(r.value.0, HomeworkVerdicts[r.value.1])
  {
    var approved := TryStatus(message, "approved");
    if approved.Some? then approved
    else
      var reviewing := TryStatus(message, "reviewing");
      if reviewing.Some? then reviewing
      else TryStatus(message, "rejected")
  }

  /** A message ending in one status's tail ends in no other status's tail. */
  lemma TailsDistinguish(message: string, s1: string, s2: string)
    requires s1 in HomeworkVerdicts && s2 in HomeworkVerdicts && s1 != s2
    requires EndsWith(message, Tail(s1))
    ensures !EndsWith(message, Tail(s2))
  {
    var t1, t2 := Tail(s1), Tail(s2);
    var a, v, j := Tail("approved"), Tail("reviewing"), Tail("rejected");
    assert a[|a| - 1] == '!' && v[|v| - 1] == '.' && j[|j| - 1] == '.';
    assert v[|v| - 2] == 'м' && j[|j| - 2] == 'я';
    assert t1[|t1| - 2..] != t2[|t2| - 2..] by {
      assert t1[|t1| - 2..][0] == t1[|t1| - 2] && t1[|t1| - 2..][1] == t1[|t1| - 1];
      assert t2[|t2| - 2..][0] == t2[|t2| - 2] && t2[|t2| - 2..][1] == t2[|t2| - 1];
    }
    EndsWithLastTwo(message, t1);
    EndsWithLastTwo(message, t2);
  }

  /** A string and any suffix of it of length two or more end in the same two characters. */
  lemma EndsWithLastTwo(s: string, suffix: string)
    requires |suffix| >= 2
    ensures EndsWith(s, suffix) ==> s[|s| - 2..] == suffix[|suffix| - 2..]
  {
  }

  /** The message for a known status decodes to its name and status. */
  lemma {:induction false} DecodeStatusMessageRoundTrip(name: string, status: string)
    requires status in HomeworkVerdicts
    ensures DecodeStatusMessage(StatusMessage(name, HomeworkVerdicts[status])) == Some((name, status))
  {
    var message := StatusMessage(name, HomeworkVerdicts[status]);
    TryStatusOwnTail(name, status);
    if status != "approved" {
      TailsDistinguish(message, status, "approved");
    }
    if status == "rejected" {
      TailsDistinguish(message, status, "reviewing");
    }
  }

  /** A message built for `status` is recognised by that status's tail, with its name. */
  lemma TryStatusOwnTail(name: string, status: string)
    requires status in HomeworkVerdicts
    ensures EndsWith(StatusMessage(name, HomeworkVerdicts[status]), Tail(status))
    ensures TryStatus(StatusMessage(name, HomeworkVerdicts[status]), status) == Some((name, status))
  {
    var tail := Tail(status);
    var message := StatusMessage(name, HomeworkVerdicts[status]);
    assert message == MessageHead + name + tail;
    assert message[..|MessageHead|] == MessageHead;
    assert message[|message| - |tail|..] == tail;
    assert message[|MessageHead|..|message| - |tail|] == name;
  }

  /** Distinct (name, status) pairs give distinct messages. */
  lemma StatusMessageInjective(n1: string, s1: string, n2: string, s2: string)
    requires s1 in HomeworkVerdicts && s2 in HomeworkVerdicts
    requires StatusMessage(n1, HomeworkVerdicts[s1]) == StatusMessage(n2, HomeworkVerdicts[s2])
    ensures n1 == n2 && s1 == s2
  {
    DecodeStatusMessageRoundTrip(n1, s1);
    DecodeStatusMessageRoundTrip(n2, s2);
  }
}

=== FILE: poll_loop.dfy ===
/**
 * The body of `main`: the credential gate, then one try/except cycle per API
 * answer, sharing a single dedup slot (`last_sent_message`) between status
 * notifications and failure reports.
 *
 * The API answer of each cycle is an input. A message counts as sent when
 * `send_message` is called with it: delivery errors are swallowed there, so
 * the slot is updated whether or not Telegram accepted the message.
 */
module PollLoop {
  import opened Wrappers
  import opened Json
  import opened Errors
  import opened Tokens
  import opened Validator
  import opened Parser

  const FailureHead: string := "Сбой в работе программы: "

  /** The report for an exception that escaped the cycle: `f'Сбой в работе программы: {error}'`. */
  function FailureMessage(e: PyError): string {
    FailureHead + ErrorText(e)
  }

  /** What one call of `get_api_answer` came to. */
  datatype ApiAnswer =
    /** HTTP 200; the decoded JSON body. */
    | Body(json: Json)
    /** `requests.get` raised: the error is logged and the function returns `None`. */
    | TransportFailure
    /** A status other than 200: `RequestError` with this message. */
    | BadStatus(message: string)
    /** HTTP 200 whose body `response.json()` cannot decode: that exception, by its text. */
    | NotJson(message: string)

  /** The value `get_api_answer` returns, or the exception it raises. */
  function Fetched(a: ApiAnswer): Result<Json, PyError> {
    match a
    case Body(j) => Success(j)
    case TransportFailure => Success(JNull)
    case BadStatus(m) => Failure(RequestError(m))
    case NotJson(m) => Failure(OtherError(m))
  }

  /** `str()` of the `AttributeError` raised by `.get` on a value that is not a dict. */
  function NoGetMsg(j: Json): string {
    "'" + TypeName(j) + "' object has no attribute 'get'"
  }

  /** The orchestrator's state between cycles: the dedup slot and the `from_date` of the next query. */
  datatype State = State(lastSent: string, window: Json)

  /** The state `main` enters the loop with: an empty slot and the current clock reading. */
  function InitialState(now: int): State {
    State("", JInt(now))
  }

  /** The state after one cycle, and the messages it sent, in order. */
  datatype Cycle = Cycle(state: State, sent: seq<string>)

  /** The dedup slot after some messages were offered to it, and the ones that were sent. */
  datatype Slot = Slot(last: string, sent: seq<string>)

  // ---------------------------------------------------------------------------
  // One cycle, as the code runs it
  // ---------------------------------------------------------------------------

  /** `timestamp = response.get('current_date')`: run before validation, and only if a value came back that has `.get`. */
  function NextWindow(window: Json, a: ApiAnswer): (w: Json)
    ensures a.Body? && a.json.JObj? ==> w == Get(a.json.fields, "current_date")
    ensures !(a.Body? && a.json.JObj?) ==> w == window
  {
    match Fetched(a)
    case Failure(_) => window
    case Success(response) =>
      if response.JObj? then Get(response.fields, "current_date") else window
  }

  /**
   * Lines 140-143 of the cycle: fetch, read `current_date`, validate. The
   * records to notify about (empty for "no update"), or the exception.
   */
  function Received(a: ApiAnswer): (r: Result<seq<Json>, PyError>)
    ensures r.Success? <==> a.Body? && WellFormed(a.json)
    ensures r.Success? ==> r.value == a.json.fields["homeworks"].items
    ensures a.Body? && !a.json.JObj? ==> r == Failure(AttributeError(NoGetMsg(a.json)))
    ensures a.Body? && a.json.JObj? && !WellFormed(a.json) ==> r == Failure(TypeError(NotAListMsg))
    ensures a.TransportFailure? ==> r == Failure(AttributeError(NoGetMsg(JNull)))
    ensures a.BadStatus? ==> r == Failure(RequestError(a.message))
    ensures r != Failure(TypeError(NotADictMsg))
  {
    match Fetched(a)
    case Failure(e) => Failure(e)
    case Success(response) =>
      if !response.JObj? then
        Failure(AttributeError(NoGetMsg(response)))
      else
        match CheckResponse(response)
        case Failure(e) => Failure(e)
        case Success(NoUpdate) => Success([])
        case Success(Update(works)) => Success(works)
  }

  /** `if last_sent_message != message: send_message(...); last_sent_message = message`. */
  function Notify(last: string, message: string): Slot {
    if last != message then Slot(message, [message]) else Slot(last, [])
  }

  /** The slot, the messages sent, and the exception that stopped the loop, if any. */
  datatype Progress = Progress(last: string, sent: seq<string>, raised: Option<PyError>)

  /** `for work in homework: message = parse_status(work); <notify>`, stopping at the first exception. */
  function SendStatuses(last: string, works: seq<Json>): Progress
    decreases |works|
  {
    if works == [] then Progress(last, [], None)
    else
      match ParseStatus(works[0])
      case Failure(e) => Progress(last, [], Some(e))
      case Success(message) =>
        var first := Notify(last, message);
        var rest := SendStatuses(first.last, works[1..]);
        Progress(rest.last, first.sent + rest.sent, rest.raised)
  }

  // ---------------------------------------------------------------------------
  // The same cycle, described as "candidates through a single-slot filter"
  // ---------------------------------------------------------------------------

  /**
   * Offering `messages` one by one to a slot holding `last`: each is sent iff
   * it differs from the slot, and then becomes the slot.
   */
  function Dedup(last: string, messages: seq<string>): Slot
    decreases |messages|
  {
    if messages == [] then Slot(last, [])
    else
      var first := Notify(last, messages[0]);
      var rest := Dedup(first.last, messages[1..]);
      Slot(rest.last, first.sent + rest.sent)
  }

  /**
   * What the single slot guarantees: it ends holding the last message
   * offered; what is sent comes from the offered messages, no more of them;
   * the first send differs from the slot's starting value and no send repeats
   * the one before it (each send differs from the slot at that moment, see
   * `DedupSnoc`); and nothing is sent exactly when every offered message
   * equals the slot.
   */
  lemma {:induction false} DedupKeepsSlot(last: string, messages: seq<string>)
    ensures |Dedup(last, messages).sent| <= |messages|
    ensures messages != [] ==> Dedup(last, messages).last == messages[|messages| - 1]
    ensures messages == [] ==> Dedup(last, messages).last == last
    ensures Dedup(last, messages).sent == [] ==> Dedup(last, messages).last == last
    ensures var r := Dedup(last, messages);
            r.sent != [] ==> r.last == r.sent[|r.sent| - 1] && r.sent[0] != last
    ensures var r := Dedup(last, messages);
            forall k :: 0 <= k < |r.sent| - 1 ==> r.sent[k] != r.sent[k + 1]
    ensures forall m :: m in Dedup(last, messages).sent ==> m in messages
    ensures Dedup(last, messages).sent == [] <==> forall k :: 0 <= k < |messages| ==> messages[k] == last
    decreases |messages|
  {
    if messages != [] {
      var first := Notify(last, messages[0]);
      var tail := messages[1..];
      DedupKeepsSlot(first.last, tail);
      var rest := Dedup(first.last, tail);
      assert forall m :: m in tail ==> m in messages;
      assert forall k :: 0 < k < |messages| ==> messages[k] == tail[k - 1];
      if first.sent != [] && rest.sent != [] {
        assert rest.sent[0] != first.last;
      }
    }
  }

  /**
   * The per-offer law: a message offered to the slot is sent exactly when it
   * differs from what the slot holds at that moment, and it then becomes the
   * slot.
   */
  lemma DedupSnoc(last: string, messages: seq<string>, m: string)
    ensures Dedup(last, messages + [m]).sent
            == Dedup(last, messages).sent + (if m != Dedup(last, messages).last then [m] else [])
    ensures Dedup(last, messages + [m]).last == m
  {
    DedupAppend(last, messages, [m]);
    assert [m][1..] == [];
  }

  /** Messages produced by parsing records, and the exception that ended the parsing, if any. */
  datatype Offers = Offers(messages: seq<string>, raised: Option<PyError>)

  /** `parse_status` applied to the records in order, up to the first one it rejects. */
  function RecordMessages(works: seq<Json>): (o: Offers)
    ensures |o.messages| <= |works|
    ensures forall k :: 0 <= k < |o.messages| ==> ParseStatus(works[k]) == Success(o.messages[k])
    ensures o.raised.None? ==> |o.messages| == |works|
    ensures o.raised.Some? ==>
              |o.messages| < |works| && ParseStatus(works[|o.messages|]) == Failure(o.raised.value)
    decreases |works|
  {
    if works == [] then Offers([], None)
    else
      match ParseStatus(works[0])
      case Failure(e) => Offers([], Some(e))
      case Success(message) =>
        var rest := RecordMessages(works[1..]);
        Offers([message] + rest.messages, rest.raised)
  }

  /** Every message a cycle hands to the dedup slot, in order; they do not depend on the slot. */
  function Candidates(a: ApiAnswer): seq<string> {
    match Received(a)
    case Failure(e) => [FailureMessage(e)]
    case Success(works) =>
      var o := RecordMessages(works);
      if o.raised.Some? then o.messages + [FailureMessage(o.raised.value)] else o.messages
  }

  /** Offering two batches in turn is offering their concatenation. */
  lemma {:induction false} DedupAppend(last: string, xs: seq<string>, ys: seq<string>)
    ensures Dedup(last, xs + ys)
            == Slot(Dedup(Dedup(last, xs).last, ys).last,
                    Dedup(last, xs).sent + Dedup(Dedup(last, xs).last, ys).sent)
    decreases |xs|
  {
    if xs == [] {
      assert xs + ys == ys;
    } else {
      var first := Notify(last, xs[0]);
      assert (xs + ys)[0] == xs[0];
      assert (xs + ys)[1..] == xs[1..] + ys;
      DedupAppend(first.last, xs[1..], ys);
    }
  }

  /** The record loop is the dedup filter applied to the parsed messages. */
  lemma {:induction false} SendStatusesIsDedup(last: string, works: seq<Json>)
    ensures SendStatuses(last, works)
            == Progress(Dedup(last, RecordMessages(works).messages).last,
                        Dedup(last, RecordMessages(works).messages).sent,
                        RecordMessages(works).raised)
    decreases |works|
  {
    if works != [] {
      match ParseStatus(works[0])
      case Failure(e) =>
      case Success(message) =>
        var first := Notify(last, message);
        var restMessages := RecordMessages(works[1..]).messages;
        SendStatusesIsDedup(first.last, works[1..]);
        assert ([message] + restMessages)[0] == message;
        assert ([message] + restMessages)[1..] == restMessages;
    }
  }

  /**
   * The end of the cycle once the try body has stopped: if it raised, the
   * except handler offers the failure report to the slot.
   */
  function Finish(progress: Progress, window: Json): Cycle {
    match progress.raised
    case None => Cycle(State(progress.last, window), progress.sent)
    case Some(e) =>
      var report := Notify(progress.last, FailureMessage(e));
      Cycle(State(report.last, window), progress.sent + report.sent)
  }

  /**
   * One pass through the try/except/finally body of the loop. The failure
   * report goes through the same slot as the status messages, after any that
   * were sent before the exception.
   */
  function Step(s: State, a: ApiAnswer): Cycle {
    var window := NextWindow(s.window, a);
    match Received(a)
    case Failure(e) => Finish(Progress(s.lastSent, [], Some(e)), window)
    case Success(works) => Finish(SendStatuses(s.lastSent, works), window)
  }

  /** The cycle as the code runs it is its candidates offered to the slot. */
  lemma StepIsDedup(s: State, a: ApiAnswer)
    ensures Step(s, a) == Cycle(State(Dedup(s.lastSent, Candidates(a)).last, NextWindow(s.window, a)),
                                Dedup(s.lastSent, Candidates(a)).sent)
  {
    match Received(a)
    case Failure(e) =>
      assert [FailureMessage(e)][1..] == [];
    case Success(works) =>
      SendStatusesIsDedup(s.lastSent, works);
      var o := RecordMessages(works);
      if o.raised.Some? {
        var report := [FailureMessage(o.raised.value)];
        DedupAppend(s.lastSent, o.messages, report);
        assert report[1..] == [];
      }
  }

  /**
   * In one cycle the first send differs from the slot the cycle started
   * with, no send repeats the one before it, and the slot ends holding the
   * last send (or untouched when nothing is sent).
   */
  lemma StepKeepsSlot(s: State, a: ApiAnswer)
    ensures var c := Step(s, a);
            && (c.sent == [] ==> c.state.lastSent == s.lastSent)
            && (c.sent != [] ==> c.sent[0] != s.lastSent && c.state.lastSent == c.sent[|c.sent| - 1])
            && (forall k :: 0 <= k < |c.sent| - 1 ==> c.sent[k] != c.sent[k + 1])
  {
    StepIsDedup(s, a);
    DedupKeepsSlot(s.lastSent, Candidates(a));
  }

  /** An empty "homeworks" list sends nothing and leaves the slot as it was; the window still moves. */
  lemma NoUpdateSendsNothing(s: State, fields: map<string, Json>)
    requires "homeworks" in fields && fields["homeworks"] == JArr([])
    ensures Step(s, Body(JObj(fields))) == Cycle(State(s.lastSent, Get(fields, "current_date")), [])
  {
  }

  /** A cycle that raises before any record is parsed reports the exception, unless that report is already in the slot. */
  lemma FailureIsReported(s: State, a: ApiAnswer, e: PyError)
    requires Received(a) == Failure(e)
    ensures Step(s, a).state.lastSent == FailureMessage(e)
    ensures Step(s, a).sent == (if s.lastSent == FailureMessage(e) then [] else [FailureMessage(e)])
  {
  }

  /**
   * When a record is rejected part-way through the list, the notifications
   * already sent for the records before it stand, and the failure report,
   * now in the slot, comes after them.
   */
  lemma SendsBeforeFailureStand(s: State, a: ApiAnswer, works: seq<Json>)
    requires Received(a) == Success(works) && RecordMessages(works).raised.Some?
    ensures Dedup(s.lastSent, RecordMessages(works).messages).sent <= Step(s, a).sent
    ensures Step(s, a).state.lastSent == FailureMessage(RecordMessages(works).raised.value)
  {
    var o := RecordMessages(works);
    StepIsDedup(s, a);
    DedupAppend(s.lastSent, o.messages, [FailureMessage(o.raised.value)]);
    DedupKeepsSlot(s.lastSent, Candidates(a));
  }

  /** A transport error makes `get_api_answer` return `None`: the cycle behaves as for a `null` body and reports the failed `.get`. */
  lemma TransportFailureIsNullBody(s: State)
    ensures Step(s, TransportFailure) == Step(s, Body(JNull))
    ensures Step(s, TransportFailure).state.lastSent == FailureMessage(AttributeError(NoGetMsg(JNull)))
    ensures Step(s, TransportFailure).state.window == s.window
  {
  }

  /**
   * Running a cycle again on an answer whose candidates are all the same text
   * (one record, or an exception before any record) sends nothing the second
   * time.
   */
  lemma RepeatSendsNothing(s: State, a: ApiAnswer)
    requires forall k :: 0 <= k < |Candidates(a)| ==> Candidates(a)[k] == Candidates(a)[0]
    ensures Step(Step(s, a).state, a).sent == []
    ensures Step(Step(s, a).state, a).state.lastSent == Step(s, a).state.lastSent
  {
    var first := Step(s, a);
    StepIsDedup(s, a);
    StepIsDedup(first.state, a);
    DedupKeepsSlot(s.lastSent, Candidates(a));
    DedupKeepsSlot(first.state.lastSent, Candidates(a));
  }

  /**
   * Once the slot holds the one text an answer offers (or the answer offers
   * none), any number of further cycles on that answer send nothing.
   */
  lemma {:induction false} QuietRepeats(t: State, a: ApiAnswer, n: nat)
    requires forall k :: 0 <= k < |Candidates(a)| ==> Candidates(a)[k] == Candidates(a)[0]
    requires Candidates(a) == [] || t.lastSent == Candidates(a)[0]
    ensures Poll(t, seq(n, _ => a)).sent == []
    ensures Poll(t, seq(n, _ => a)).state.lastSent == t.lastSent
    decreases n
  {
    if n > 0 {
      var answers := seq(n, _ => a);
      assert answers[0] == a;
      assert answers[1..] == seq(n - 1, _ => a);
      StepIsDedup(t, a);
      DedupKeepsSlot(t.lastSent, Candidates(a));
      QuietRepeats(Step(t, a).state, a, n - 1);
    }
  }

  /**
   * An answer with at most one record, or one that fails before the records,
   * is notified at most once however often it repeats: a run of `n + 1`
   * cycles on it sends what the first cycle sent and nothing more.
   */
  lemma SingleRecordSentOnce(s: State, a: ApiAnswer, n: nat)
    requires Received(a).Failure? || |Received(a).value| <= 1
    ensures Poll(s, seq(n + 1, _ => a)).sent == Step(s, a).sent
  {
    assert |Candidates(a)| <= 1;
    var answers := seq(n + 1, _ => a);
    assert answers[0] == a;
    assert answers[1..] == seq(n, _ => a);
    var first := Step(s, a);
    StepIsDedup(s, a);
    DedupKeepsSlot(s.lastSent, Candidates(a));
    QuietRepeats(first.state, a, n);
    assert first.sent + [] == first.sent;
  }

  /**
   * The slot holds one message, so repeating an answer whose two records
   * parse to different messages sends both of them again, in list order.
   * Two records with different names or verdicts parse to different
   * messages (`Parser.StatusMessageInjective`).
   */
  lemma TwoRecordsSentAgain(s: State, r1: Json, r2: Json, m1: string, m2: string)
    requires ParseStatus(r1) == Success(m1) && ParseStatus(r2) == Success(m2) && m1 != m2
    ensures var a := Body(JObj(map["homeworks" := JArr([r1, r2])]));
            Step(Step(s, a).state, a).sent == [m1, m2]
  {
    var a := Body(JObj(map["homeworks" := JArr([r1, r2])]));
    assert [r1, r2][1..] == [r2];
    assert Candidates(a) == [m1, m2];
    StepIsDedup(s, a);
    StepIsDedup(Step(s, a).state, a);
    DedupKeepsSlot(s.lastSent, [m1, m2]);
  }


  // ---------------------------------------------------------------------------
  // The loop over a finite run of answers, and `main`
  // ---------------------------------------------------------------------------

  /** The state after some cycles, everything sent, and the `from_date` of every query. */
  datatype Trace = Trace(state: State, sent: seq<string>, queries: seq<Json>)

  /** The candidates of a run of answers, cycle after cycle. */
  function AllCandidates(answers: seq<ApiAnswer>): seq<string>
    decreases |answers|
  {
    if answers == [] then [] else Candidates(answers[0]) + AllCandidates(answers[1..])
  }

  /**
   * `while True:` over a finite run of answers. No failure ends the loop: one
   * query per answer; each query's window is the one the previous cycle
   * left; and the whole run behaves as one slot offered every candidate in
   * turn, so the dedup rule holds across cycles.
   */
  function Poll(s: State, answers: seq<ApiAnswer>): (t: Trace)
    ensures |t.queries| == |answers|
    ensures answers != [] ==> t.queries[0] == s.window
    ensures forall k :: 0 <= k < |answers| - 1 ==> t.queries[k + 1] == NextWindow(t.queries[k], answers[k])
    ensures answers != [] ==> t.state.window == NextWindow(t.queries[|answers| - 1], answers[|answers| - 1])
    ensures answers == [] ==> t.state == s
    ensures t.sent == Dedup(s.lastSent, AllCandidates(answers)).sent
    ensures t.state.lastSent == Dedup(s.lastSent, AllCandidates(answers)).last
    decreases |answers|
  {
    if answers == [] then Trace(s, [], [])
    else
      var c := Step(s, answers[0]);
      var rest := Poll(c.state, answers[1..]);
      StepIsDedup(s, answers[0]);
      DedupAppend(s.lastSent, Candidates(answers[0]), AllCandidates(answers[1..]));
      Trace(rest.state, c.sent + rest.sent, [s.window] + rest.queries)
  }

  /** How `main` ends: it exits before the loop, or it polls. */
  datatype Run = Exited | Polled(trace: Trace)

  /**
   * `main()`: exit before any query when a credential is missing; otherwise
   * poll from the clock reading `now` with an empty slot.
   */
  function Main(practicumToken: Option<string>, telegramToken: Option<string>,
               telegramChatId: Option<string>, now: int, answers: seq<ApiAnswer>): (r: Run)
    ensures r.Exited? <==> !CheckTokens(practicumToken, telegramToken, telegramChatId)
    ensures r.Polled? ==> |r.trace.queries| == |answers|
    ensures r.Polled? && answers != [] ==> r.trace.queries[0] == JInt(now)
    ensures r.Polled? ==> forall k :: 0 <= k < |r.trace.sent| - 1 ==> r.trace.sent[k] != r.trace.sent[k + 1]
    ensures r.Polled? && r.trace.sent != [] ==> r.trace.sent[0] != ""
    ensures r.Polled? ==> r.trace.sent == Dedup("", AllCandidates(answers)).sent
    ensures r.Polled? ==> r.trace.state.lastSent == Dedup("", AllCandidates(answers)).last
  {
    if !CheckTokens(practicumToken, telegramToken, telegramChatId) then Exited
    else
      DedupKeepsSlot("", AllCandidates(answers));
      Polled(Poll(InitialState(now), answers))
  }
}

=== FILE: tokens.dfy ===
/** `check_tokens`: the three credentials read from the environment. */
module Tokens {
  import opened Wrappers

  /** Python truthiness of an `os.getenv` result: `None` and `''` are false. */
  predicate Truthy(v: Option<string>) {
    match v
    case None => false
    case Some(s) => |s| != 0
  }

  /** Python's `all(values)`: true when no value is falsy. */
  function All(values: seq<Option<string>>): (ok: bool)
    ensures ok <==> forall k :: 0 <= k < |values| ==> values[k].Some? && values[k].value != ""
  {
    if values == [] then true else Truthy(values[0]) && All(values[1..])
  }

  /**
   * `check_tokens()`: every credential (Practicum token, Telegram token,
   * Telegram chat id) is present and non-empty.
   */
  function CheckTokens(practicumToken: Option<string>, telegramToken: Option<string>,
                       telegramChatId: Option<string>): (ok: bool)
    ensures ok <==> && practicumToken.Some? && practicumToken.value != ""
                    && telegramToken.Some? && telegramToken.value != ""
                    && telegramChatId.Some? && telegramChatId.value != ""
  {
    var values := [practicumToken, telegramToken, telegramChatId];
    assert values[0] == practicumToken && values[1] == telegramToken && values[2] == telegramChatId;
    All(values)
  }
}

=== FILE: validator.dfy ===
/** `check_response`: the shape check on the decoded API answer. */
module Validator {
  import opened Wrappers
  import opened Json
  import opened Errors

  const NotADictMsg: string := "Ошибка данных - отсутствует словарь"
  const NotAListMsg: string := "Ошибка данных - отсутствует список"
  const NoHomeworksKeyMsg: string := "Ошибка данных - в словаре нет ключа \"homeworks\""

  /** The non-exceptional outcomes: `None` ("no update") or the non-empty list. */
  datatype Validated = NoUpdate | Update(homeworks: seq<Json>)

  /** The documented shape of an answer: a dict holding a list under "homeworks". */
  predicate WellFormed(response: Json) {
    && response.JObj?
    && "homeworks" in response.fields
    && response.fields["homeworks"].JArr?
  }

  /**
   * `check_response(response)`. The list check reads the key with `.get`,
   * which yields `None` when the key is absent, so a missing key is reported
   * as a `TypeError` and the `KeyError` branch after it is never taken.
   */
  function CheckResponse(response: Json): (r: Result<Validated, PyError>)
    ensures r.Success? <==> WellFormed(response)
    ensures !response.JObj? ==> r == Failure(TypeError(NotADictMsg))
    ensures response.JObj? && !WellFormed(response) ==> r == Failure(TypeError(NotAListMsg))
    ensures r.Failure? ==> r.error.TypeError?
    ensures r.Success? ==> (r.value == NoUpdate <==> response.fields["homeworks"].items == [])
    ensures r.Success? && r.value.Update? ==>
              r.value.homeworks == response.fields["homeworks"].items && |r.value.homeworks| > 0
  {
    if !response.JObj? then
      Failure(TypeError(NotADictMsg))
    else
      var homeworkList := Get(response.fields, "homeworks");
      if !homeworkList.JArr? then
        Failure(TypeError(NotAListMsg))
      else if "homeworks" !in response.fields then
        Failure(KeyError(NoHomeworksKeyMsg))
      else if |homeworkList.items| > 0 then
        Success(Update(homeworkList.items))
      else
        Success(NoUpdate)
  }

  /** A dict without "homeworks" fails the list check: the error is never the `KeyError`. */
  lemma MissingKeyIsTypeError(fields: map<string, Json>)
    requires "homeworks" !in fields
    ensures CheckResponse(JObj(fields)) == Failure(TypeError(NotAListMsg))
    ensures CheckResponse(JObj(fields)) != Failure(KeyError(NoHomeworksKeyMsg))
  {
  }
}

=== FILE: wrappers.dfy ===
/** Failure-carrying result types shared by the model of homework.py. */
module Wrappers {

  /** A value that may be absent (Python's `None`). */
  datatype Option<+T> = None | Some(value: T)

  /** Either a computed value or the exception the Python code would raise. */
  datatype Result<+T, +E> = Success(value: T) | Failure(error: E)
}
